=== FILE: README.md ===
# Athletes, workouts and a console bank — a Dafny model

The repository holds two unrelated programs, and this project models the core of each.

**The console banking script** (`sistemabancario.py`). It keeps users and current accounts in two
in-memory lists. Its rules are modelled as pure functions:

- `Teller`: withdrawal (`sacar`) and deposit (`depositar`) on one account's ledger. A ledger is the
  balance, the statement and the withdrawal count.
- `Cpf`: the CPF helpers `limpar_cpf`, `validar_cpf` and `formatar_cpf`.
- `Banking`: user registration, account opening with sequential numbers, the two lookups, and
  operations on a selected account. It also covers any session of such menu commands.

Console input becomes parameters. Amounts are exact Dafny `real`s. The statement is a list of
`Credit`/`Debit` entries rather than formatted text.

**The workout API** (`NovoDesafio/workout_api`). Its two tables become two maps from primary key to
row, each with a counter for the next id:

- `AthleteSchema` and `WorkoutSchema`: the request and response shapes, and their validity predicates.
- `Store`: the tables and the constraints their columns declare.
- `AthleteRoutes` and `WorkoutRoutes`: the ten handlers. Create, Update and Delete are functions
  returning the new store and either the row or an error; Get returns the row or NotFound; List is
  a method returning every row.
- `ApiSession`: arbitrary sequences of requests.

Error handling follows the code:

- The request body is validated before the handler runs, so `ValidationFailed` comes before any
  lookup.
- A lookup miss is `NotFound`.
- A duplicate `cpf` is refused by the unique column (`UniqueViolation`).
- A patch field sent as JSON `null` counts as set under `exclude_unset`. It is written with
  `setattr` and then refused by the non-null column at commit (`NotNullViolation`).

Every failure leaves the store unchanged.

Two points of the code the model follows:

- `AthleteIn.cpf` only has a length bound of 11, not an 11-digit check (`schemas/athlete.py:8`).
- A duplicate `cpf` is caught by the database constraint, not by a pre-check in the handler.

Files: `wrappers.dfy`, `teller.dfy`, `cpf.dfy`, `banking.dfy`, `athlete_schema.dfy`,
`workout_schema.dfy`, `store.dfy`, `athlete_routes.dfy`, `workout_routes.dfy`, `api_session.dfy`.

## Model

| member | source | states |
|---|---|---|
| Teller.Withdraw | sistemabancario.py:20-46 | A withdrawal succeeds iff 0 < amount ≤ balance, amount ≤ 500 and fewer than 3 withdrawals have been made. On success the balance drops by exactly the amount, the count rises by one, and one debit entry is appended. On failure the ledger is returned unchanged. The reason follows the fixed priority: balance, then per-withdrawal limit, then count, then non-positive amount. |
| Teller.Deposit | sistemabancario.py:49-63 | A deposit succeeds iff amount > 0. It then adds the amount to the balance and appends one credit entry. Otherwise the ledger is unchanged and the amount is reported invalid. The withdrawal count is never touched. |
| Teller.Apply | sistemabancario.py:271-290 | The state an operation returns replaces the account's. An accepted operation appends exactly one entry, carrying the amount, after the old statement. A refused one changes nothing. The count rises by one exactly for an accepted withdrawal. |
| Teller.ApplyKeepsInvariant | sistemabancario.py:26-58 | One deposit or withdrawal keeps balance ≥ 0 and 0 ≤ count ≤ 3. It keeps balance and count equal to what the statement records, and never lowers the count. |
| Teller.RunKeepsInvariant | sistemabancario.py:271-290 | Any sequence of deposits and withdrawals, each fed the previous result, keeps those bounds and the agreement with the statement. The count never decreases, so it is never reset. |
| Teller.FreshAccountStaysSound | sistemabancario.py:150-152 | From a new account (balance 0, empty statement, no withdrawals), every sequence of operations ends with balance ≥ 0 and at most 3 withdrawals. |
| Teller.NonPositiveWithdrawal | sistemabancario.py:26-38 | On a sound ledger, a withdrawal of a non-positive amount is refused for the count if 3 withdrawals were made, and as an invalid amount otherwise. It is never refused for balance or limit. |
| Cpf.Clean | sistemabancario.py:226-230 | Cleanup returns only digit characters and is never longer than its input. |
| Cpf.IsValid | sistemabancario.py:233-237 | A CPF is valid iff it has exactly 11 characters and cleanup leaves it unchanged, i.e. all of them are digits. |
| Cpf.Slice | sistemabancario.py:244 | Python slicing `s[lo:hi]` with clamping: the length is 0 when lo is past the end, len(s) - lo when hi is past the end, hi - lo otherwise, and character i of the result is character lo + i of s. |
| Cpf.Suffix | sistemabancario.py:244 | Python slicing `s[lo:]`: the plain suffix when lo is within the string, empty when lo is past its end. |
| Cpf.CleanAppend | sistemabancario.py:230 | Cleanup distributes over concatenation, so it keeps the digits in their original order. |
| Cpf.CleanChar | sistemabancario.py:230 | A single character survives cleanup iff it is a digit. |
| Cpf.CleanIdempotent | sistemabancario.py:226-230 | Cleaning twice gives the same as cleaning once. |
| Cpf.ValidIsClean | sistemabancario.py:233-237 | A valid CPF (11 characters, all digits) is unchanged by cleanup. |
| Cpf.Format | sistemabancario.py:240-244 | For a valid CPF the display form has length 14. It has '.' at indexes 3 and 7 and '-' at index 11, and the CPF's digit groups sit between them. |
| Cpf.FormatThenClean | sistemabancario.py:226-244 | For every input string, including short or long ones under Python's clamped slicing, cleaning the formatted string gives the same as cleaning the input. |
| Cpf.CleanFormatRoundTrip | sistemabancario.py:226-244 | For a valid CPF, cleaning its display form gives back the CPF. |
| Banking.Upper | sistemabancario.py:112 | The state abbreviation is upper-cased letter by letter (ASCII); its length is kept. |
| Banking.Address | sistemabancario.py:112-114 | The full layout `street, number - district - city/STATE`: each part at its position with the separators ", ", " - ", " - " and "/" between them, the state upper-cased, and the length the parts plus the 9 separator characters. |
| Banking.FirstIndex | sistemabancario.py:208-211 | The lookup loops return at the first element that matches. A position is found only if it matches and no earlier element does, and nothing is found only when no element matches. |
| Banking.UserIndex | sistemabancario.py:208-211 | The user lookup yields the position of the FIRST user with that CPF: no earlier user has it. It finds none only when no stored user has it. |
| Banking.FindUser | sistemabancario.py:202-211 | A user is returned iff some stored user has that CPF, and the returned user is the first stored user with that CPF. |
| Banking.AccountIndex | sistemabancario.py:220-223 | The lookup loop stops at the first account with the number. It finds none only when no account has it. |
| Banking.FindAccount | sistemabancario.py:214-223 | An account is returned iff some stored account has that number, and the returned account is the first stored account with that number. |
| Banking.CreateUser | sistemabancario.py:92-123 | Registration is refused as invalid iff the cleaned CPF is not 11 digits. It is refused as a duplicate iff it is valid but already registered. A refusal leaves the registry unchanged. Otherwise exactly one user is appended with the cleaned CPF and the assembled address, and the accounts are untouched. |
| Banking.CreateAccount | sistemabancario.py:135-155 | Opening fails, with nothing changed, iff no user has the cleaned CPF. Otherwise one account is appended: agency "0001", number len(accounts)+1, the first user with that CPF as holder, balance 0, empty statement, 0 withdrawals. Users and earlier accounts are untouched. |
| Banking.Transact | sistemabancario.py:247-290 | With no accounts the operation fails with nothing changed, and likewise for an unknown number. Otherwise only the first account with that number gets the operation's ledger. All other accounts, all users, and every number, agency and holder stay as they were. A refused operation changes nothing. |
| Banking.Step | sistemabancario.py:315-333 | A state-changing menu entry only appends users and accounts. It never renumbers an account, moves it to another agency or changes its holder. A refused registration or opening changes nothing. |
| Banking.FindAccountByNumber | sistemabancario.py:144-155 | With accounts numbered in order, looking up number k finds exactly the k-th account when 1 ≤ k ≤ n, and nothing otherwise. |
| Banking.CreateUserKeepsValid | sistemabancario.py:95-102 | Registration keeps every stored CPF valid and all stored CPFs pairwise distinct. |
| Banking.CreateAccountKeepsValid | sistemabancario.py:138-155 | Opening an account keeps the accounts numbered 1..n in agency 0001. Every holder stays a registered user. |
| Banking.TransactKeepsValid | sistemabancario.py:271-290 | An operation on a selected account keeps every ledger at balance ≥ 0 and ≤ 3 withdrawals, in agreement with its statement. |
| Banking.RunKeepsValid | sistemabancario.py:315-333 | Any sequence of menu commands keeps CPFs valid and distinct, accounts numbered 1..n, and every ledger sound. |
| Banking.SessionStaysValid | sistemabancario.py:355-364 | From empty lists, the invariants above hold after any session. |
| AthleteSchema.FromInput | NovoDesafio/workout_api/routers/athlete.py:16 | The stored row copies name, cpf and age from the body. It is a valid row iff the body is valid (name ≤ 50, cpf ≤ 11, age > 0). |
| AthleteSchema.Merge | NovoDesafio/workout_api/routers/athlete.py:52-53 | The patch applies iff no set field is null. Id and cpf never change. A set field takes the sent value and an unset field keeps the prior one. |
| AthleteSchema.MergeKeepsValidRow | NovoDesafio/workout_api/schemas/athlete.py:20-22 | A valid patch (name ≤ 50, age > 0 when present) keeps a valid row valid. |
| AthleteSchema.MergeIdempotent | NovoDesafio/workout_api/routers/athlete.py:52-53 | Applying the same patch twice gives the same as applying it once. |
| AthleteSchema.MergeEmpty | NovoDesafio/workout_api/routers/athlete.py:52-53 | A body that sets nothing leaves the athlete unchanged. |
| Wrappers.Assign | NovoDesafio/workout_api/routers/athlete.py:52-53 | Assigning one patch field: an unset field keeps the column value, a set field takes the sent value, and only a null yields no value. |
| WorkoutSchema.FromInput | NovoDesafio/workout_api/models/workout.py:15 | The stored row copies athlete_id, name and sport_modality from the body. It takes its id from the table and created_at from the insert time, never from input. It is a valid row iff the body is valid. |
| WorkoutSchema.Merge | NovoDesafio/workout_api/routers/workout.py:61-62 | The patch applies iff no set field is null. Id, athlete_id and created_at never change. Name and sport_modality take the sent value only when set. |
| WorkoutSchema.MergeKeepsValidRow | NovoDesafio/workout_api/schemas/workout.py:22-24 | A valid patch (each present text ≤ 50) keeps a valid row valid. |
| WorkoutSchema.MergeIdempotent | NovoDesafio/workout_api/routers/workout.py:61-62 | Applying the same patch twice gives the same as applying it once. |
| Store.WorkoutsOf | NovoDesafio/workout_api/models/athlete.py:15 | An athlete's workouts are exactly the stored workouts whose athlete_id is its id. |
| Store.Enumerate | NovoDesafio/workout_api/routers/athlete.py:25-26 | Reading a whole table yields every row exactly once (distinct keys, one per stored key), each with its stored value. |
| AthleteRoutes.Create | NovoDesafio/workout_api/routers/athlete.py:14-20 | An invalid body is refused, and so is a body whose cpf is already stored. Both refusals leave the store unchanged. Otherwise the athlete is stored under the next id with the body's name, cpf and age, and nothing else changes. |
| AthleteRoutes.List | NovoDesafio/workout_api/routers/athlete.py:23-26 | The list holds exactly the stored athletes, each once, so an empty store gives an empty list. |
| AthleteRoutes.Get | NovoDesafio/workout_api/routers/athlete.py:29-37 | Returns the stored row iff the id is present, and NotFound otherwise. |
| AthleteRoutes.Update | NovoDesafio/workout_api/routers/athlete.py:40-57 | An invalid patch is refused, then an absent id (NotFound), then a null field. Each refusal leaves the store unchanged. A valid patch with no null field on a present id always succeeds, and then only that athlete changes, and only in the fields the patch set. Id and cpf keep their values. |
| AthleteRoutes.Delete | NovoDesafio/workout_api/routers/athlete.py:60-69 | An absent id gives NotFound with the store unchanged. Otherwise exactly that athlete row is removed and the workouts are untouched. |
| AthleteRoutes.CreateIsFresh | NovoDesafio/workout_api/models/athlete.py:10 | The new athlete's id was not in the store, every earlier athlete is unchanged, and get returns the new row. |
| AthleteRoutes.CreateKeepsValid | NovoDesafio/workout_api/models/athlete.py:10-13 | Creation keeps ids as keys and cpf unique. It keeps every row at name ≤ 50, cpf ≤ 11 and age > 0. |
| AthleteRoutes.UpdateKeepsValid | NovoDesafio/workout_api/schemas/athlete.py:20-22 | A patch keeps all those constraints, and the updated row keeps its id. |
| AthleteRoutes.DeleteKeepsValid | NovoDesafio/workout_api/routers/athlete.py:68 | Deleting keeps all those constraints. |
| AthleteRoutes.CreateKeepsReferences | NovoDesafio/workout_api/routers/athlete.py:15-20 | Creating an athlete never leaves a workout without its athlete. |
| AthleteRoutes.UpdateKeepsReferences | NovoDesafio/workout_api/routers/athlete.py:52-57 | Patching an athlete never leaves a workout without its athlete. |
| AthleteRoutes.DeleteKeepsReferencesIff | NovoDesafio/workout_api/models/workout.py:12 | Removing the athlete row keeps every workout's athlete_id resolving iff that athlete has no workouts. |
| AthleteRoutes.DeleteThenGet | NovoDesafio/workout_api/routers/athlete.py:61-69 | After a delete, getting the same id gives NotFound. |
| WorkoutRoutes.Create | NovoDesafio/workout_api/routers/workout.py:15-29 | An invalid body is refused, and so is one whose athlete_id is not a stored athlete (NotFound). Both refusals leave the store unchanged. Otherwise the workout is stored under the next id with the body's fields and the insert time, and the athletes are unchanged. |
| WorkoutRoutes.List | NovoDesafio/workout_api/routers/workout.py:32-35 | The list holds exactly the stored workouts, each once, so an empty store gives an empty list. |
| WorkoutRoutes.Get | NovoDesafio/workout_api/routers/workout.py:38-46 | Returns the stored row iff the id is present, and NotFound otherwise. |
| WorkoutRoutes.Update | NovoDesafio/workout_api/routers/workout.py:49-66 | An invalid patch is refused, then an absent id (NotFound), then a null field. Each refusal leaves both tables unchanged. A valid patch with no null field on a present id always succeeds, and then only name and sport_modality can change, and only when set. Id, athlete_id and created_at keep their values. |
| WorkoutRoutes.Delete | NovoDesafio/workout_api/routers/workout.py:69-78 | An absent id gives NotFound with the store unchanged. Otherwise the store is the old one minus exactly that workout: every other workout, every athlete and both id counters are unchanged. |
| WorkoutRoutes.CreateIsFresh | NovoDesafio/workout_api/models/workout.py:11 | The new workout's id was not in the store and every earlier workout is unchanged. |
| WorkoutRoutes.CreateKeepsValid | NovoDesafio/workout_api/models/workout.py:11-14 | Creation keeps ids as keys and name and sport_modality ≤ 50. |
| WorkoutRoutes.UpdateKeepsValid | NovoDesafio/workout_api/schemas/workout.py:22-24 | A patch keeps those constraints, and the updated row keeps its id. |
| WorkoutRoutes.DeleteKeepsValid | NovoDesafio/workout_api/routers/workout.py:77 | Deleting keeps those constraints. |
| WorkoutRoutes.CreateKeepsReferences | NovoDesafio/workout_api/routers/workout.py:19-23 | Thanks to the athlete check, creation never stores a workout whose athlete_id names no athlete. |
| WorkoutRoutes.UpdateKeepsReferences | NovoDesafio/workout_api/routers/workout.py:61-62 | An update keeps every workout's athlete_id resolving. |
| WorkoutRoutes.DeleteKeepsReferences | NovoDesafio/workout_api/routers/workout.py:77-78 | A delete keeps every workout's athlete_id resolving. |
| WorkoutRoutes.CreateExtendsWorkoutsOf | NovoDesafio/workout_api/models/athlete.py:15 | A new workout joins exactly its athlete's workouts. Every other athlete's workouts stay the same. |
| WorkoutRoutes.UpdateKeepsOwners | NovoDesafio/workout_api/schemas/workout.py:22-24 | No update moves a workout to another athlete. |
| WorkoutRoutes.DeleteShrinksWorkoutsOf | NovoDesafio/workout_api/routers/workout.py:77-78 | A delete removes that workout from its athlete's workouts and nothing else. |
| WorkoutRoutes.DeleteThenGet | NovoDesafio/workout_api/routers/workout.py:70-78 | After a delete, getting the same id gives NotFound. |
| ApiSession.HandleKeepsValid | NovoDesafio/workout_api/models/athlete.py:10-13 | Every state-changing request keeps the table constraints. |
| ApiSession.HandleKeepsReferences | NovoDesafio/workout_api/models/workout.py:12 | Every request except deleting an athlete that still has workouts keeps every workout's athlete_id resolving. |
| ApiSession.RunKeepsValid | NovoDesafio/workout_api/schemas/athlete.py:7-9 | After any request sequence: ids are keys, cpf is unique, every athlete has age > 0 and a name ≤ 50, and every workout's texts are ≤ 50. |
| ApiSession.RunKeepsReferences | NovoDesafio/workout_api/routers/workout.py:19-23 | If no request deletes an athlete that still has workouts, every workout names a stored athlete after the whole sequence. |
| ApiSession.FromEmpty | NovoDesafio/workout_api/models/workout.py:11-15 | From an empty database, every request sequence leads to a store satisfying all constraints. |
| ApiSession.FirstAthleteAndWorkout | NovoDesafio/workout_api/routers/workout.py:15-46 | On an empty store, athlete "Ana" gets id 1. Her workout gets id 1 and the insert time, and reading it back returns the same row. A workout for a missing athlete is refused with nothing written. |

## Left out

- Console I/O, the menu text and loop, and the print-only `exibir_extrato`, `listar_contas` and `listar_usuarios`: they only display state.
- The statement's text: timestamps from the clock and `:>10.2f` formatting. Entries keep kind and amount only.
- Float money: amounts are exact reals, so rounding is not modelled, and neither are NaN and infinity. In Python a NaN amount passes the amount guards of `sacar`, so with fewer than 3 withdrawals it succeeds and leaves `saldo` NaN.
- Teller.Withdraw: the success condition is stated for exact reals. It does not describe the float special values above.
- Unicode: digits are '0'..'9' and upper-casing covers ASCII letters only. Python's `\D`, `isdigit` and `upper` accept more.
- `selecionar_conta` crashes on a non-numeric account number (`int(input(...))`), and `processar_deposito` and `processar_saque` crash on a non-numeric amount (`float(input(...))`, sistemabancario.py:273, 283); the model takes numbers.
- In the script the first selected account stays selected for the rest of the session (`conta_atual` is set only by `selecionar_conta` and never cleared). Banking.Transact names an account on every command, so Banking.Run also covers sessions that switch accounts; the invariants it keeps hold for those too.
- HTTP plumbing: routing, status codes, async sessions, commit and refresh, CORS, the health check, Alembic migrations, packaging and re-export files.
- Pydantic type coercion and the error payloads. Only the outcome (`ValidationFailed`) is kept.
- Deleting an athlete that still has workouts. No cascade is declared, so the ORM and database decide what happens to those workouts. The model removes only the athlete row and claims the foreign key survives only when the athlete has no workouts.
- Id generation is a per-table counter starting at 1. A refused insert leaves it unchanged; whether a real database sequence skips a value then is not modelled.
- AthleteRoutes.List and WorkoutRoutes.List return rows in ascending id order. The source's query has no ordering, so the database's order is unspecified.
- The 32-bit width of the `Integer` columns is not modelled; ids and ages are unbounded integers.
- The `NotNullViolation` and `UniqueViolation` outcomes are exceptions at commit in the source (a server error at the boundary). The model reports them as errors with the store unchanged, which is what a rolled-back commit leaves.

=== FILE: api_session.dfy ===
/** Any sequence of requests against the workout API, one handler call after another. */
module ApiSession {
  import opened Wrappers
  import AthleteSchema
  import WorkoutSchema
  import opened Store
  import AthleteRoutes
  import WorkoutRoutes

  /** One state-changing request (reads change nothing). A workout creation carries the
      time the store stamps on it. */
  datatype Request =
    | CreateAthlete(athlete: AthleteSchema.AthleteIn)
    | UpdateAthlete(athleteId: int, athletePatch: AthleteSchema.AthleteUpdate)
    | DeleteAthlete(athleteId: int)
    | CreateWorkout(workout: WorkoutSchema.WorkoutIn, now: WorkoutSchema.Timestamp)
    | UpdateWorkout(workoutId: int, workoutPatch: WorkoutSchema.WorkoutUpdate)
    | DeleteWorkout(workoutId: int)

  function Handle(s: Store, q: Request): Store
  {
    match q
    case CreateAthlete(a) => AthleteRoutes.Create(s, a).store
    case UpdateAthlete(id, u) => AthleteRoutes.Update(s, id, u).store
    case DeleteAthlete(id) => AthleteRoutes.Delete(s, id).store
    case CreateWorkout(w, now) => WorkoutRoutes.Create(s, w, now).store
    case UpdateWorkout(id, u) => WorkoutRoutes.Update(s, id, u).store
    case DeleteWorkout(id) => WorkoutRoutes.Delete(s, id).store
  }

  function Run(s: Store, qs: seq<Request>): Store
    decreases |qs|
  {
    if |qs| == 0 then s else Run(Handle(s, qs[0]), qs[1..])
  }

  /** A request deletes an athlete that still has workouts, the case the model leaves open. */
  predicate OrphansWorkouts(s: Store, q: Request)
  {
    q.DeleteAthlete? && WorkoutsOf(s, q.athleteId) != map[]
  }

  lemma HandleKeepsValid(s: Store, q: Request)
    requires Valid(s)
    ensures Valid(Handle(s, q))
  {
    match q {
      case CreateAthlete(a) => AthleteRoutes.CreateKeepsValid(s, a);
      case UpdateAthlete(id, u) => AthleteRoutes.UpdateKeepsValid(s, id, u);
      case DeleteAthlete(id) => AthleteRoutes.DeleteKeepsValid(s, id);
      case CreateWorkout(w, now) => WorkoutRoutes.CreateKeepsValid(s, w, now);
      case UpdateWorkout(id, u) => WorkoutRoutes.UpdateKeepsValid(s, id, u);
      case DeleteWorkout(id) => WorkoutRoutes.DeleteKeepsValid(s, id);
    }
  }

  lemma HandleKeepsReferences(s: Store, q: Request)
    requires ReferencesResolve(s) && !OrphansWorkouts(s, q)
    ensures ReferencesResolve(Handle(s, q))
  {
    match q {
      case CreateAthlete(a) => AthleteRoutes.CreateKeepsReferences(s, a);
      case UpdateAthlete(id, u) => AthleteRoutes.UpdateKeepsReferences(s, id, u);
      case DeleteAthlete(id) => AthleteRoutes.DeleteKeepsReferencesIff(s, id);
      case CreateWorkout(w, now) => WorkoutRoutes.CreateKeepsReferences(s, w, now);
      case UpdateWorkout(id, u) => WorkoutRoutes.UpdateKeepsReferences(s, id, u);
      case DeleteWorkout(id) => WorkoutRoutes.DeleteKeepsReferences(s, id);
    }
  }

  /** Every request sequence keeps the table constraints: ids are keys, cpf is unique, and every
      athlete has age > 0 and a name of at most 50 characters. */
  lemma {:induction false} RunKeepsValid(s: Store, qs: seq<Request>)
    requires Valid(s)
    ensures Valid(Run(s, qs))
    decreases |qs|
  {
    if |qs| > 0 {
      HandleKeepsValid(s, qs[0]);
      RunKeepsValid(Handle(s, qs[0]), qs[1..]);
    }
  }

  /** As long as no request deletes an athlete that still has workouts, every workout names a
      stored athlete. */
  lemma {:induction false} RunKeepsReferences(s: Store, qs: seq<Request>)
    requires ReferencesResolve(s)
    requires forall i :: 0 <= i < |qs| ==> !OrphansWorkouts(Run(s, qs[..i]), qs[i])
    ensures ReferencesResolve(Run(s, qs))
    decreases |qs|
  {
    if |qs| > 0 {
      assert qs[..0] == [];
      HandleKeepsReferences(s, qs[0]);
      var t := Handle(s, qs[0]);
      forall i | 0 <= i < |qs[1..]|
        ensures !OrphansWorkouts(Run(t, qs[1..][..i]), qs[1..][i])
      {
        assert qs[..i + 1][1..] == qs[1..][..i];
        assert !OrphansWorkouts(Run(s, qs[..i + 1]), qs[i + 1]);
      }
      RunKeepsReferences(t, qs[1..]);
    }
  }

  /** The store a fresh deployment starts from satisfies every constraint, and so does every
      store the handlers lead to. */
  lemma FromEmpty(qs: seq<Request>)
    ensures Valid(Run(Empty, qs))
  {
    RunKeepsValid(Empty, qs);
  }

  /** On an empty store: the first athlete gets id 1, a workout for it gets id 1 and the insert
      time, reading it back gives the same row, and a workout for a missing athlete is refused. */
  lemma FirstAthleteAndWorkout(now: WorkoutSchema.Timestamp)
    ensures var a := AthleteRoutes.Create(Empty, AthleteSchema.AthleteIn("Ana", "12345678901", 30));
            && a.result == Success(AthleteSchema.Athlete(1, "Ana", "12345678901", 30))
            && var w := WorkoutRoutes.Create(a.store, WorkoutSchema.WorkoutIn(1, "Run", "Running"), now);
               && w.result == Success(WorkoutSchema.Workout(1, 1, "Run", "Running", now))
               && WorkoutRoutes.Get(w.store, 1) == w.result
               && WorkoutRoutes.Create(a.store, WorkoutSchema.WorkoutIn(2, "Run", "Running"), now)
                  == Reply(a.store, Failure(NotFound))
  {
  }
}

=== FILE: athlete_routes.dfy ===
/** The five `/athletes` handlers as total functions over the store. A failed request
    leaves the store as it was; validation of the body comes before any lookup. */
module AthleteRoutes {
  import opened Wrappers
  import opened AthleteSchema
  import opened Store

  /** `POST /athletes/`: validate, then insert under the next id; the unique `cpf` column
      refuses a duplicate. */
  function Create(s: Store, input: AthleteIn): (r: Reply<Athlete>)
    ensures r.result == Failure(ValidationFailed) <==> !ValidIn(input)
    ensures r.result == Failure(UniqueViolation) <==> ValidIn(input) && CpfTaken(s, input.cpf)
    ensures r.result.Success? <==> ValidIn(input) && !CpfTaken(s, input.cpf)
    ensures r.result.Failure? ==> r.store == s
    ensures r.result.Success? ==>
              var a := r.result.value;
              && a.id == s.nextAthleteId
              && a.name == input.name && a.cpf == input.cpf && a.age == input.age
              && r.store == s.(athletes := s.athletes[a.id := a], nextAthleteId := s.nextAthleteId + 1)
  {
    if !ValidIn(input) then Reply(s, Failure(ValidationFailed))
    else if CpfTaken(s, input.cpf) then Reply(s, Failure(UniqueViolation))
    else
      var a := FromInput(s.nextAthleteId, input);
      Reply(s.(athletes := s.athletes[a.id := a], nextAthleteId := s.nextAthleteId + 1), Success(a))
  }

  /** `GET /athletes/`: exactly the stored athletes, each once. */
  method List(s: Store) returns (r: seq<Athlete>)
    requires AthletesKeyed(s)
    ensures |r| == |s.athletes|
    ensures forall a :: a in r <==> a in s.athletes.Values
    ensures forall i, j :: 0 <= i < j < |r| ==> r[i].id < r[j].id
  {
    var keys;
    keys, r := Enumerate(s.athletes, s.nextAthleteId);
    forall a | a in s.athletes.Values
      ensures a in r
    {
      var k :| k in s.athletes && s.athletes[k] == a;
      var i :| 0 <= i < |keys| && keys[i] == k;
      assert r[i] == a;
    }
  }

  /** `GET /athletes/{id}`. */
  function Get(s: Store, id: int): (r: Result<Athlete, ApiError>)
    ensures r.Success? <==> id in s.athletes
    ensures r.Success? ==> r.value == s.athletes[id]
    ensures r.Failure? ==> r.error == NotFound
  {
    if id in s.athletes then Success(s.athletes[id]) else Failure(NotFound)
  }

  /** `PATCH /athletes/{id}`: only the fields the body sets are written; `id` and `cpf` never change. */
  function Update(s: Store, id: int, u: AthleteUpdate): (r: Reply<Athlete>)
    ensures r.result == Failure(ValidationFailed) <==> !ValidUpdate(u)
    ensures r.result == Failure(NotFound) <==> ValidUpdate(u) && id !in s.athletes
    ensures r.result == Failure(NotNullViolation) <==>
              ValidUpdate(u) && id in s.athletes && (u.name.Null? || u.age.Null?)
    ensures r.result.Success? <==> ValidUpdate(u) && id in s.athletes && !u.name.Null? && !u.age.Null?
    ensures r.result.Failure? ==> r.store == s
    ensures r.result.Success? ==>
              var a := r.result.value;
              && id in s.athletes
              && a.id == s.athletes[id].id && a.cpf == s.athletes[id].cpf
              && a.name == (if u.name.Set? then u.name.value else s.athletes[id].name)
              && a.age == (if u.age.Set? then u.age.value else s.athletes[id].age)
              && r.store == s.(athletes := s.athletes[id := a])
  {
    if !ValidUpdate(u) then Reply(s, Failure(ValidationFailed))
    else if id !in s.athletes then Reply(s, Failure(NotFound))
    else match Merge(s.athletes[id], u)
      case None => Reply(s, Failure(NotNullViolation))
      case Some(a) => Reply(s.(athletes := s.athletes[id := a]), Success(a))
  }

  /** `DELETE /athletes/{id}`: removes that athlete row and nothing else. */
  function Delete(s: Store, id: int): (r: Reply<()>)
    ensures r.result.Failure? <==> id !in s.athletes
    ensures r.result.Failure? ==> r.result.error == NotFound && r.store == s
    ensures r.result.Success? ==> r.store == s.(athletes := s.athletes - {id})
  {
    if id !in s.athletes then Reply(s, Failure(NotFound))
    else Reply(s.(athletes := s.athletes - {id}), Success(()))
  }

  /** A created athlete gets an id no stored athlete had, and every other athlete is untouched. */
  lemma CreateIsFresh(s: Store, input: AthleteIn)
    requires Valid(s) && Create(s, input).result.Success?
    ensures Create(s, input).result.value.id !in s.athletes
    ensures forall k :: k in s.athletes ==> k in Create(s, input).store.athletes
                                            && Create(s, input).store.athletes[k] == s.athletes[k]
    ensures Get(Create(s, input).store, Create(s, input).result.value.id) == Success(Create(s, input).result.value)
  {
  }

  /** Creation keeps the table constraints: keyed rows, unique cpf, valid rows. */
  lemma CreateKeepsValid(s: Store, input: AthleteIn)
    requires Valid(s)
    ensures Valid(Create(s, input).store)
  {
  }

  /** A valid patch keeps the table constraints; a created-then-patched athlete keeps age > 0
      and a name of at most 50 characters. */
  lemma UpdateKeepsValid(s: Store, id: int, u: AthleteUpdate)
    requires Valid(s)
    ensures Valid(Update(s, id, u).store)
    ensures Update(s, id, u).result.Success? ==> Update(s, id, u).result.value.id == id
  {
  }

  lemma DeleteKeepsValid(s: Store, id: int)
    requires Valid(s)
    ensures Valid(Delete(s, id).store)
  {
  }

  /** Creating or patching an athlete never breaks a workout's reference. */
  lemma CreateKeepsReferences(s: Store, input: AthleteIn)
    requires ReferencesResolve(s)
    ensures ReferencesResolve(Create(s, input).store)
  {
  }

  lemma UpdateKeepsReferences(s: Store, id: int, u: AthleteUpdate)
    requires ReferencesResolve(s)
    ensures ReferencesResolve(Update(s, id, u).store)
  {
  }

  /** Removing the athlete row keeps every workout's reference exactly when the athlete
      has no workouts; what the database does with workouts that would be left dangling is
      not part of this model. */
  lemma DeleteKeepsReferencesIff(s: Store, id: int)
    requires ReferencesResolve(s)
    ensures ReferencesResolve(Delete(s, id).store) <==> WorkoutsOf(s, id) == map[]
  {
    var s' := Delete(s, id).store;
    if ReferencesResolve(s') {
      forall k | k in s.workouts
        ensures s.workouts[k].athleteId != id
      {
        assert s'.workouts[k].athleteId in s'.athletes;
      }
      assert WorkoutsOf(s, id).Keys == {};
    }
  }

  /** After a delete, looking the athlete up fails. */
  lemma DeleteThenGet(s: Store, id: int)
    ensures Get(Delete(s, id).store, id) == Failure(NotFound)
  {
  }
}

=== FILE: athlete_schema.dfy ===
/** Request and response shapes for athletes, and the row the athlete table stores. */
module AthleteSchema {
  import opened Wrappers

  /** `name` is a `String(50)` column and a `max_length=50` field. */
  const NameMax: nat := 50
  /** `cpf` is a `String(11)` column and a `max_length=11` field: a length bound only. */
  const CpfMax: nat := 11

  /** `AthleteIn`: the creation body. */
  datatype AthleteIn = AthleteIn(name: string, cpf: string, age: int)

  /** A stored athlete row; its fields are exactly those of `AthleteOut`. */
  datatype Athlete = Athlete(id: int, name: string, cpf: string, age: int)

  /** `AthleteUpdate`: the partial-update body. It has no `cpf` and no `id`. */
  datatype AthleteUpdate = AthleteUpdate(name: Patch<string>, age: Patch<int>)

  /** Field constraints of `AthleteIn`. */
  predicate ValidIn(a: AthleteIn)
  {
    |a.name| <= NameMax && |a.cpf| <= CpfMax && a.age > 0
  }

  /** Field constraints of `AthleteUpdate`: they apply only to fields sent with a value. */
  predicate ValidUpdate(u: AthleteUpdate)
  {
    && (u.name.Set? ==> |u.name.value| <= NameMax)
    && (u.age.Set? ==> u.age.value > 0)
  }

  /** What every row written through the handlers satisfies: its name, cpf and age pass the
      creation-body validation. The column widths (`String(50)`, `String(11)`) are the same
      bounds; the positive age is kept only because every write is validated first. */
  predicate ValidRow(a: Athlete)
  {
    ValidIn(AthleteIn(a.name, a.cpf, a.age))
  }

  /** `AthleteModel(**data.model_dump())` with the id the table assigns. */
  function FromInput(id: int, a: AthleteIn): (r: Athlete)
    ensures r.id == id && r.name == a.name && r.cpf == a.cpf && r.age == a.age
    ensures ValidRow(r) <==> ValidIn(a)
  {
    Athlete(id, a.name, a.cpf, a.age)
  }

  /** The `setattr` loop over the fields that were set. `None` when a set field is null,
      which the non-null columns refuse at commit. */
  function Merge(a: Athlete, u: AthleteUpdate): (r: Option<Athlete>)
    ensures r.Some? <==> !u.name.Null? && !u.age.Null?
    ensures r.Some? ==> r.value.id == a.id && r.value.cpf == a.cpf
    ensures r.Some? ==> r.value.name == (if u.name.Set? then u.name.value else a.name)
    ensures r.Some? ==> r.value.age == (if u.age.Set? then u.age.value else a.age)
  {
    match (Assign(u.name, a.name), Assign(u.age, a.age))
    case (Some(n), Some(g)) => Some(a.(name := n, age := g))
    case _ => None
  }

  /** A valid patch applied to a valid row gives a valid row. */
  lemma MergeKeepsValidRow(a: Athlete, u: AthleteUpdate)
    requires ValidRow(a) && ValidUpdate(u) && Merge(a, u).Some?
    ensures ValidRow(Merge(a, u).value)
  {
  }

  /** Applying the same patch twice is applying it once. */
  lemma MergeIdempotent(a: Athlete, u: AthleteUpdate)
    requires Merge(a, u).Some?
    ensures Merge(Merge(a, u).value, u) == Merge(a, u)
  {
  }

  /** An empty body changes nothing. */
  lemma MergeEmpty(a: Athlete)
    ensures Merge(a, AthleteUpdate(Unset, Unset)) == Some(a)
  {
  }
}

=== FILE: banking.dfy ===
/** The user and account registry of the banking script, and its menu commands,
    with console input passed as parameters. */
module Banking {
  import opened Wrappers
  import Teller
  import Cpf

  /** Every account belongs to this agency. */
  const Agency: string := "0001"
  /** Number given to the first account; later ones follow in order. */
  const FirstAccountNumber: int := 1

  datatype User = User(name: string, birthDate: string, cpf: string, address: string)

  datatype Account = Account(agency: string, number: int, holder: User, ledger: Teller.Ledger)

  /** The two in-memory lists of the script. */
  datatype Bank = Bank(users: seq<User>, accounts: seq<Account>)

  const Empty: Bank := Bank([], [])

  /** The answers the registration form collects, as typed. */
  datatype Registration = Registration(
    rawCpf: string, name: string, birthDate: string,
    street: string, houseNumber: string, district: string, city: string, state: string)

  datatype BankError =
    | InvalidCpf
    | DuplicateCpf
    | UserNotFound
    | NoAccounts
    | AccountNotFound
    | Refused(reason: Teller.Rejection)

  /** The registry after a command, and the failure message if one was shown. */
  datatype Reply = Reply(bank: Bank, error: Option<BankError>)

  /** A menu entry that changes state: "nu", "nc", or "d"/"s" on an account number. */
  datatype Command =
    | NewUser(form: Registration)
    | NewAccount(rawCpf: string)
    | Transact(accountNumber: int, op: Teller.Op)

  /** `str.upper` restricted to ASCII letters. */
  function Upper(s: string): (r: string)
    ensures |r| == |s|
    ensures forall i :: 0 <= i < |s| ==> r[i] == (if 'a' <= s[i] <= 'z' then s[i] - 'a' + 'A' else s[i])
  {
    if |s| == 0 then "" else [if 'a' <= s[0] <= 'z' then s[0] - 'a' + 'A' else s[0]] + Upper(s[1..])
  }

  /** The one-line address `street, number - district - city/STATE`. */
  function Address(f: Registration): (r: string)
    ensures |r| == |f.street| + |f.houseNumber| + |f.district| + |f.city| + |f.state| + 9
    ensures r[..|f.street|] == f.street
    ensures var n := |f.street| + 2;
      r[|f.street|..n] == ", " && r[n..n + |f.houseNumber|] == f.houseNumber
    ensures var d := |f.street| + 2 + |f.houseNumber| + 3;
      r[d - 3..d] == " - " && r[d..d + |f.district|] == f.district
    ensures var c := |f.street| + 2 + |f.houseNumber| + 3 + |f.district| + 3;
      r[c - 3..c] == " - " && r[c..c + |f.city|] == f.city
    ensures r[|r| - |f.state| - 1] == '/' && r[|r| - |f.state|..] == Upper(f.state)
  {
    f.street + ", " + f.houseNumber + " - " + f.district + " - " + f.city + "/" + Upper(f.state)
  }

  /** Position of the first element satisfying `p`: the linear scan with early return shared by
      both lookups of the script. */
  function FirstIndex<T>(xs: seq<T>, p: T -> bool): (r: Option<nat>)
    ensures r.Some? ==> r.value < |xs| && p(xs[r.value])
    ensures r.Some? ==> forall j :: 0 <= j < r.value ==> !p(xs[j])
    ensures r.None? ==> forall j :: 0 <= j < |xs| ==> !p(xs[j])
  {
    if |xs| == 0 then None
    else if p(xs[0]) then Some(0)
    else match FirstIndex(xs[1..], p)
      case None => None
      case Some(i) => Some(i + 1)
  }

  /** Position of the first user with the given CPF. */
  function UserIndex(users: seq<User>, cpf: string): (r: Option<nat>)
    ensures r.Some? ==> r.value < |users| && users[r.value].cpf == cpf
    ensures r.Some? ==> forall j :: 0 <= j < r.value ==> users[j].cpf != cpf
    ensures r.None? ==> forall j :: 0 <= j < |users| ==> users[j].cpf != cpf
  {
    FirstIndex(users, (u: User) => u.cpf == cpf)
  }

  /** `buscar_usuario_por_cpf`: the first stored user with that CPF, if any. */
  function FindUser(users: seq<User>, cpf: string): (r: Option<User>)
    ensures r.Some? <==> exists i :: 0 <= i < |users| && users[i].cpf == cpf
    ensures r.Some? ==> r.value in users && r.value.cpf == cpf
    ensures r.Some? ==> r == Some(users[UserIndex(users, cpf).value])
  {
    match UserIndex(users, cpf)
    case None => None
    case Some(i) => Some(users[i])
  }

  /** Position of the first account with the given number. */
  function AccountIndex(accounts: seq<Account>, number: int): (r: Option<nat>)
    ensures r.Some? ==> r.value < |accounts| && accounts[r.value].number == number
    ensures r.Some? ==> forall j :: 0 <= j < r.value ==> accounts[j].number != number
    ensures r.None? ==> forall j :: 0 <= j < |accounts| ==> accounts[j].number != number
  {
    FirstIndex(accounts, (a: Account) => a.number == number)
  }

  /** `buscar_conta_por_numero`: the first account with that number, if any. */
  function FindAccount(accounts: seq<Account>, number: int): (r: Option<Account>)
    ensures r.Some? <==> exists i :: 0 <= i < |accounts| && accounts[i].number == number
    ensures r.Some? ==> r.value in accounts && r.value.number == number
    ensures r.Some? ==> r == Some(accounts[AccountIndex(accounts, number).value])
  {
    match AccountIndex(accounts, number)
    case None => None
    case Some(i) => Some(accounts[i])
  }

  /** Stored CPFs are valid and pairwise distinct. */
  predicate UsersWellFormed(users: seq<User>)
  {
    && (forall i :: 0 <= i < |users| ==> Cpf.IsValid(users[i].cpf))
    && (forall i, j :: 0 <= i < j < |users| ==> users[i].cpf != users[j].cpf)
  }

  /** Accounts are numbered 1..n in list order, all in agency 0001, held by registered users,
      and each ledger keeps the bounds and agrees with its statement. */
  predicate AccountsWellFormed(b: Bank)
  {
    forall i :: 0 <= i < |b.accounts| ==>
      && b.accounts[i].number == i + FirstAccountNumber
      && b.accounts[i].agency == Agency
      && b.accounts[i].holder in b.users
      && Teller.Sound(b.accounts[i].ledger)
      && Teller.Accounted(b.accounts[i].ledger)
  }

  predicate Valid(b: Bank)
  {
    UsersWellFormed(b.users) && AccountsWellFormed(b)
  }

  /** `criar_usuario`: the typed CPF is cleaned, then rejected if invalid or already registered;
      otherwise one user is appended. */
  function CreateUser(b: Bank, f: Registration): (r: Reply)
    ensures r.error == Some(InvalidCpf) <==> !Cpf.IsValid(Cpf.Clean(f.rawCpf))
    ensures r.error == Some(DuplicateCpf) <==>
              Cpf.IsValid(Cpf.Clean(f.rawCpf)) && exists i :: 0 <= i < |b.users| && b.users[i].cpf == Cpf.Clean(f.rawCpf)
    ensures r.error.None? <==>
              Cpf.IsValid(Cpf.Clean(f.rawCpf)) && forall i :: 0 <= i < |b.users| ==> b.users[i].cpf != Cpf.Clean(f.rawCpf)
    ensures r.error.Some? ==> r.bank == b
    ensures r.error.None? ==>
              && r.bank.accounts == b.accounts
              && r.bank.users == b.users + [User(f.name, f.birthDate, Cpf.Clean(f.rawCpf), Address(f))]
  {
    var cpf := Cpf.Clean(f.rawCpf);
    if !Cpf.IsValid(cpf) then Reply(b, Some(InvalidCpf))
    else if FindUser(b.users, cpf).Some? then Reply(b, Some(DuplicateCpf))
    else Reply(b.(users := b.users + [User(f.name, f.birthDate, cpf, Address(f))]), None)
  }

  /** `criar_conta_corrente`: fails when no user has the cleaned CPF; otherwise appends
      account number `len(contas) + 1` of agency 0001 with an empty ledger. */
  function CreateAccount(b: Bank, rawCpf: string): (r: Reply)
    ensures r.error.Some? <==> forall i :: 0 <= i < |b.users| ==> b.users[i].cpf != Cpf.Clean(rawCpf)
    ensures r.error.Some? ==> r.bank == b && r.error == Some(UserNotFound)
    ensures r.error.None? ==>
              && r.bank.users == b.users
              && |r.bank.accounts| == |b.accounts| + 1
              && r.bank.accounts[..|b.accounts|] == b.accounts
              && var a := r.bank.accounts[|b.accounts|];
                 && a.agency == Agency
                 && a.number == |b.accounts| + FirstAccountNumber
                 && a.holder in b.users && a.holder.cpf == Cpf.Clean(rawCpf)
                 && a.holder == FindUser(b.users, Cpf.Clean(rawCpf)).value
                 && a.ledger == Teller.Fresh
  {
    match FindUser(b.users, Cpf.Clean(rawCpf))
    case None => Reply(b, Some(UserNotFound))
    case Some(u) =>
      Reply(b.(accounts := b.accounts + [Account(Agency, |b.accounts| + FirstAccountNumber, u, Teller.Fresh)]), None)
  }

  /** `selecionar_conta` followed by `processar_deposito` / `processar_saque`: the account with
      that number gets the operation's ledger; nothing else changes. */
  function Transact(b: Bank, number: int, op: Teller.Op): (r: Reply)
    ensures |b.accounts| == 0 ==> r == Reply(b, Some(NoAccounts))
    ensures |b.accounts| > 0 && FindAccount(b.accounts, number).None? ==> r == Reply(b, Some(AccountNotFound))
    ensures r.bank.users == b.users && |r.bank.accounts| == |b.accounts|
    ensures forall i :: 0 <= i < |b.accounts| ==>
              && r.bank.accounts[i].number == b.accounts[i].number
              && r.bank.accounts[i].agency == b.accounts[i].agency
              && r.bank.accounts[i].holder == b.accounts[i].holder
    ensures AccountIndex(b.accounts, number).Some? ==>
              var k := AccountIndex(b.accounts, number).value;
              var o := Teller.Apply(b.accounts[k].ledger, op);
              && r.bank.accounts[k].ledger == o.ledger
              && (forall i :: 0 <= i < |b.accounts| && i != k ==> r.bank.accounts[i] == b.accounts[i])
              && (r.error.None? <==> o.rejection.None?)
              && (o.rejection.Some? ==> r == Reply(b, Some(Refused(o.rejection.value))))
  {
    if |b.accounts| == 0 then Reply(b, Some(NoAccounts))
    else match AccountIndex(b.accounts, number)
      case None => Reply(b, Some(AccountNotFound))
      case Some(k) =>
        var o := Teller.Apply(b.accounts[k].ledger, op);
        var bank := b.(accounts := b.accounts[k := b.accounts[k].(ledger := o.ledger)]);
        match o.rejection
        case None => Reply(bank, None)
        case Some(why) => Reply(bank, Some(Refused(why)))
  }

  /** `processar_opcao_menu` for the entries that change state: users and accounts are only
      ever appended, and no account is renumbered, moved to another agency or re-owned. */
  function Step(b: Bank, c: Command): (r: Reply)
    ensures b.users <= r.bank.users
    ensures |b.accounts| <= |r.bank.accounts|
    ensures forall i :: 0 <= i < |b.accounts| ==>
              && r.bank.accounts[i].number == b.accounts[i].number
              && r.bank.accounts[i].agency == b.accounts[i].agency
              && r.bank.accounts[i].holder == b.accounts[i].holder
    ensures r.error.Some? && !c.Transact? ==> r.bank == b
  {
    match c
    case NewUser(f) => CreateUser(b, f)
    case NewAccount(cpf) => CreateAccount(b, cpf)
    case Transact(n, op) => Transact(b, n, op)
  }

  /** The registry after a session of menu commands. */
  function Run(b: Bank, cmds: seq<Command>): Bank
    decreases |cmds|
  {
    if |cmds| == 0 then b else Run(Step(b, cmds[0]).bank, cmds[1..])
  }

  /** With accounts numbered 1..n, looking up number k finds exactly the k-th account. */
  lemma FindAccountByNumber(b: Bank, k: int)
    requires AccountsWellFormed(b)
    ensures FindAccount(b.accounts, k) == if 1 <= k <= |b.accounts| then Some(b.accounts[k - 1]) else None
    ensures AccountIndex(b.accounts, k) == if 1 <= k <= |b.accounts| then Some(k - 1) else None
  {
  }

  /** Registration keeps stored CPFs valid and distinct. */
  lemma CreateUserKeepsValid(b: Bank, f: Registration)
    requires Valid(b)
    ensures Valid(CreateUser(b, f).bank)
  {
  }

  /** Opening an account keeps the numbering 1..n and the holders registered. */
  lemma CreateAccountKeepsValid(b: Bank, rawCpf: string)
    requires Valid(b)
    ensures Valid(CreateAccount(b, rawCpf).bank)
  {
  }

  /** An operation on an account keeps every ledger within its bounds. */
  lemma TransactKeepsValid(b: Bank, number: int, op: Teller.Op)
    requires Valid(b)
    ensures Valid(Transact(b, number, op).bank)
  {
    var k := AccountIndex(b.accounts, number);
    if |b.accounts| > 0 && k.Some? {
      Teller.ApplyKeepsInvariant(b.accounts[k.value].ledger, op);
    }
  }

  /** Any session of menu commands keeps the registry well formed. */
  lemma {:induction false} RunKeepsValid(b: Bank, cmds: seq<Command>)
    requires Valid(b)
    ensures Valid(Run(b, cmds))
    decreases |cmds|
  {
    if |cmds| > 0 {
      match cmds[0] {
        case NewUser(f) => CreateUserKeepsValid(b, f);
        case NewAccount(cpf) => CreateAccountKeepsValid(b, cpf);
        case Transact(n, op) => TransactKeepsValid(b, n, op);
      }
      RunKeepsValid(Step(b, cmds[0]).bank, cmds[1..]);
    }
  }

  /** From the empty registry: CPFs valid and distinct, accounts numbered 1..n,
      every balance >= 0 and every withdrawal count <= 3, whatever the session. */
  lemma SessionStaysValid(cmds: seq<Command>)
    ensures Valid(Run(Empty, cmds))
  {
    RunKeepsValid(Empty, cmds);
  }
}

=== FILE: cpf.dfy ===
/** The CPF helpers of the banking script: cleanup, validation and display formatting.
    Characters are taken to be ASCII, so "digit" means '0'..'9'. */
module Cpf {

  /** A CPF has eleven digits. */
  const Length: nat := 11
  /** Length of the display form `000.000.000-00`. */
  const FormattedLength: nat := 14

  predicate IsDigit(c: char)
  {
    '0' <= c <= '9'
  }

  predicate AllDigits(s: string)
  {
    forall i :: 0 <= i < |s| ==> IsDigit(s[i])
  }

  /** `limpar_cpf`: drop every non-digit character. */
  function Clean(s: string): (r: string)
    ensures AllDigits(r)
    ensures |r| <= |s|
  {
    if |s| == 0 then ""
    else if IsDigit(s[0]) then [s[0]] + Clean(s[1..])
    else Clean(s[1..])
  }

  /** `validar_cpf`: exactly eleven characters, all of them digits. */
  predicate IsValid(cpf: string)
    ensures IsValid(cpf) <==> |cpf| == Length && Clean(cpf) == cpf
  {
    if AllDigits(cpf) then
      CleanKeepsDigits(cpf);
      |cpf| == Length
    else
      false
  }

  /** Python's `s[lo:hi]` for 0 <= lo <= hi: indexes past the end are clamped. */
  function Slice(s: string, lo: nat, hi: nat): (r: string)
    requires lo <= hi
    ensures |r| == (if |s| <= lo then 0 else if |s| <= hi then |s| - lo else hi - lo)
    ensures forall i :: 0 <= i < |r| ==> lo + i < |s| && r[i] == s[lo + i]
  {
    if |s| <= lo then "" else if |s| <= hi then s[lo..] else s[lo..hi]
  }

  /** Python's `s[lo:]`. */
  function Suffix(s: string, lo: nat): (r: string)
    ensures lo <= |s| ==> r == s[lo..]
    ensures |s| <= lo ==> r == ""
  {
    if |s| <= lo then "" else s[lo..]
  }

  /** `formatar_cpf`: `s[:3].s[3:6].s[6:9]-s[9:]`, for any input string. */
  function Format(s: string): (r: string)
    ensures IsValid(s) ==>
              && |r| == FormattedLength
              && r[3] == '.' && r[7] == '.' && r[11] == '-'
              && r[..3] == s[..3] && r[4..7] == s[3..6] && r[8..11] == s[6..9] && r[12..] == s[9..]
  {
    Slice(s, 0, 3) + "." + Slice(s, 3, 6) + "." + Slice(s, 6, 9) + "-" + Suffix(s, 9)
  }

  /** Cleanup works character by character: it distributes over concatenation. */
  lemma {:induction false} CleanAppend(a: string, b: string)
    ensures Clean(a + b) == Clean(a) + Clean(b)
    decreases |a|
  {
    if |a| == 0 {
      assert a + b == b;
    } else {
      assert (a + b)[0] == a[0];
      assert (a + b)[1..] == a[1..] + b;
      CleanAppend(a[1..], b);
    }
  }

  /** A single character survives cleanup exactly when it is a digit. */
  lemma CleanChar(c: char)
    ensures Clean([c]) == if IsDigit(c) then [c] else []
  {
  }

  /** Cleanup keeps an all-digit string as it is. */
  lemma {:induction false} CleanKeepsDigits(s: string)
    requires AllDigits(s)
    ensures Clean(s) == s
    decreases |s|
  {
    if |s| > 0 {
      CleanKeepsDigits(s[1..]);
      assert s == [s[0]] + s[1..];
    }
  }

  /** Cleaning twice is cleaning once. */
  lemma CleanIdempotent(s: string)
    ensures Clean(Clean(s)) == Clean(s)
  {
    CleanKeepsDigits(Clean(s));
  }

  /** A valid CPF is already clean. */
  lemma ValidIsClean(cpf: string)
    requires IsValid(cpf)
    ensures Clean(cpf) == cpf
  {
    CleanKeepsDigits(cpf);
  }

  /** The four slices of the display form put back together give the input. */
  lemma SlicesCover(s: string)
    ensures Slice(s, 0, 3) + Slice(s, 3, 6) + Slice(s, 6, 9) + Suffix(s, 9) == s
  {
  }

  /** Appending a separator leaves the cleaned string as it was. */
  lemma CleanSeparator(a: string, c: char)
    requires !IsDigit(c)
    ensures Clean(a + [c]) == Clean(a)
  {
    CleanAppend(a, [c]);
    CleanChar(c);
  }

  /** Formatting only inserts separators, so cleanup undoes it, for every input string. */
  lemma FormatThenClean(s: string)
    ensures Clean(Format(s)) == Clean(s)
  {
    var p0, p1, p2, p3 := Slice(s, 0, 3), Slice(s, 3, 6), Slice(s, 6, 9), Suffix(s, 9);
    var f0 := p0 + ".";
    CleanSeparator(p0, '.');
    var f1 := f0 + p1;
    CleanAppend(f0, p1);
    var f2 := f1 + ".";
    CleanSeparator(f1, '.');
    var f3 := f2 + p2;
    CleanAppend(f2, p2);
    var f4 := f3 + "-";
    CleanSeparator(f3, '-');
    CleanAppend(f4, p3);
    assert Format(s) == f4 + p3;
    assert Clean(Format(s)) == Clean(p0) + Clean(p1) + Clean(p2) + Clean(p3);
    SlicesCover(s);
    CleanAppend(p0, p1);
    CleanAppend(p0 + p1, p2);
    CleanAppend(p0 + p1 + p2, p3);
  }

  /** Round trip: cleaning the display form of a valid CPF gives the CPF back. */
  lemma CleanFormatRoundTrip(cpf: string)
    requires IsValid(cpf)
    ensures Clean(Format(cpf)) == cpf
  {
    FormatThenClean(cpf);
    ValidIsClean(cpf);
  }
}

=== FILE: store.dfy ===
/** The two tables of the workout API as maps from primary key to row,
    with the constraints the table definitions declare. */
module Store {
  import opened Wrappers
  import AthleteSchema
  import WorkoutSchema

  /** Both tables, and the next key each one hands out (ids start at 1). */
  datatype Store = Store(
    athletes: map<int, AthleteSchema.Athlete>,
    workouts: map<int, WorkoutSchema.Workout>,
    nextAthleteId: int,
    nextWorkoutId: int)

  const Empty: Store := Store(map[], map[], 1, 1)

  /** What a request can fail with: body validation, a missed lookup, the unique `cpf`
      constraint, or a null written into a non-null column. */
  datatype ApiError = ValidationFailed | NotFound | UniqueViolation | NotNullViolation

  /** The store after a request, and the request's answer. */
  datatype Reply<T> = Reply(store: Store, result: Result<T, ApiError>)

  /** `id` is the primary key: each row sits under its own id, below the next id to be handed out. */
  predicate AthletesKeyed(s: Store)
  {
    forall k :: k in s.athletes ==> s.athletes[k].id == k && 1 <= k < s.nextAthleteId
  }

  predicate WorkoutsKeyed(s: Store)
  {
    forall k :: k in s.workouts ==> s.workouts[k].id == k && 1 <= k < s.nextWorkoutId
  }

  /** `cpf` is unique: no two athletes share one. */
  predicate CpfUnique(s: Store)
  {
    forall j, k :: j in s.athletes && k in s.athletes && j != k ==> s.athletes[j].cpf != s.athletes[k].cpf
  }

  predicate RowsValid(s: Store)
  {
    && (forall k :: k in s.athletes ==> AthleteSchema.ValidRow(s.athletes[k]))
    && (forall k :: k in s.workouts ==> WorkoutSchema.ValidRow(s.workouts[k]))
  }

  /** The table constraints every handler keeps. */
  predicate Valid(s: Store)
  {
    s.nextAthleteId >= 1 && s.nextWorkoutId >= 1
    && AthletesKeyed(s) && WorkoutsKeyed(s) && CpfUnique(s) && RowsValid(s)
  }

  /** The foreign key `workout.athlete_id -> athlete.id`: every workout names a stored athlete. */
  predicate ReferencesResolve(s: Store)
  {
    forall k :: k in s.workouts ==> s.workouts[k].athleteId in s.athletes
  }

  predicate CpfTaken(s: Store, cpf: string)
  {
    exists k :: k in s.athletes && s.athletes[k].cpf == cpf
  }

  /** The `workout` relationship of an athlete: the workouts whose `athlete_id` is its id. */
  function WorkoutsOf(s: Store, athleteId: int): (r: map<int, WorkoutSchema.Workout>)
    ensures forall k :: k in r <==> k in s.workouts && s.workouts[k].athleteId == athleteId
    ensures forall k :: k in r ==> r[k] == s.workouts[k]
  {
    map k | k in s.workouts && s.workouts[k].athleteId == athleteId :: s.workouts[k]
  }

  /** `select(...)` of a whole table: every row once. The table is walked in key order below
      `limit`, which bounds every key the store has handed out. */
  method Enumerate<T>(m: map<int, T>, limit: int) returns (keys: seq<int>, rows: seq<T>)
    requires forall k :: k in m ==> 0 <= k < limit
    ensures |keys| == |rows| == |m|
    ensures forall i :: 0 <= i < |keys| ==> keys[i] in m && rows[i] == m[keys[i]]
    ensures forall k :: k in m ==> k in keys
    ensures forall i, j :: 0 <= i < j < |keys| ==> keys[i] < keys[j]
  {
    keys, rows := [], [];
    ghost var done: set<int> := {};
    var n := 0;
    while n < limit
      invariant 0 <= n <= (if limit < 0 then 0 else limit)
      invariant forall x :: x in done <==> x in m && x < n
      invariant |keys| == |rows| == |done|
      invariant forall i :: 0 <= i < |keys| ==> keys[i] in m && keys[i] in done && rows[i] == m[keys[i]]
      invariant forall x :: x in done ==> x in keys
      invariant forall i, j :: 0 <= i < j < |keys| ==> keys[i] < keys[j]
      invariant forall i :: 0 <= i < |keys| ==> keys[i] < n
    {
      if n in m {
        assert n !in done;
        keys, rows := keys + [n], rows + [m[n]];
        done := done + {n};
      }
      n := n + 1;
    }
    assert forall x :: x in m.Keys <==> x in done;
    assert m.Keys == done;
  }
}

=== FILE: teller.dfy ===
/** Deposits and withdrawals on one account of the console banking script.
    Amounts are exact reals; the statement is a list of entries instead of text lines. */
module Teller {
  import opened Wrappers

  /** Largest amount one withdrawal may take. */
  const MaxWithdrawal: real := 500.0
  /** Number of withdrawals an account may ever make (the count is never reset). */
  const MaxWithdrawals: int := 3

  /** A statement line: a deposit ("Depósito") or a withdrawal ("Saque"). */
  datatype Entry = Credit(amount: real) | Debit(amount: real)

  /** The per-account state threaded through the operations: balance, statement, withdrawal count. */
  datatype Ledger = Ledger(balance: real, statement: seq<Entry>, withdrawals: int)

  /** Why an operation was refused, in the order the withdrawal guards test them. */
  datatype Rejection = InsufficientBalance | OverLimit | TooManyWithdrawals | InvalidAmount

  /** The state handed back to the caller, and the refusal if there was one. */
  datatype Outcome = Outcome(ledger: Ledger, rejection: Option<Rejection>)

  /** A menu operation on the selected account. */
  datatype Op = DepositOp(amount: real) | WithdrawOp(amount: real)

  /** A newly opened account: no money, no statement, no withdrawals. */
  const Fresh: Ledger := Ledger(0.0, [], 0)

  /** Signed effect of one entry on the balance. */
  function Effect(e: Entry): real
  {
    match e
    case Credit(v) => v
    case Debit(v) => -v
  }

  /** Balance implied by a statement. */
  function Net(s: seq<Entry>): real
  {
    if |s| == 0 then 0.0 else Net(s[..|s| - 1]) + Effect(s[|s| - 1])
  }

  /** Number of withdrawals recorded in a statement. */
  function Debits(s: seq<Entry>): nat
  {
    if |s| == 0 then 0 else Debits(s[..|s| - 1]) + (if s[|s| - 1].Debit? then 1 else 0)
  }

  /** The ledger's balance and count are exactly what its statement records,
      and every recorded amount passed the guards of its operation. */
  predicate Accounted(l: Ledger)
  {
    && l.balance == Net(l.statement)
    && l.withdrawals == Debits(l.statement)
    && (forall i :: 0 <= i < |l.statement| ==> l.statement[i].amount > 0.0)
    && (forall i :: 0 <= i < |l.statement| && l.statement[i].Debit? ==> l.statement[i].amount <= MaxWithdrawal)
  }

  /** The bounds the script promises: never overdrawn, at most three withdrawals. */
  predicate Sound(l: Ledger)
  {
    l.balance >= 0.0 && 0 <= l.withdrawals <= MaxWithdrawals
  }

  /** `sacar`: the guards are tested in a fixed order and the first that fires names the refusal. */
  function Withdraw(l: Ledger, amount: real): (r: Outcome)
    ensures r.rejection.None? <==>
              0.0 < amount && amount <= l.balance && amount <= MaxWithdrawal && l.withdrawals < MaxWithdrawals
    ensures r.rejection.None? ==>
              && r.ledger.balance == l.balance - amount
              && r.ledger.statement == l.statement + [Debit(amount)]
              && r.ledger.withdrawals == l.withdrawals + 1
    ensures r.rejection.Some? ==> r.ledger == l
    ensures r.rejection == Some(InsufficientBalance) <==> amount > l.balance
    ensures r.rejection == Some(OverLimit) <==> amount <= l.balance && amount > MaxWithdrawal
    ensures r.rejection == Some(TooManyWithdrawals) <==>
              amount <= l.balance && amount <= MaxWithdrawal && l.withdrawals >= MaxWithdrawals
  {
    if amount > l.balance then Outcome(l, Some(InsufficientBalance))
    else if amount > MaxWithdrawal then Outcome(l, Some(OverLimit))
    else if l.withdrawals >= MaxWithdrawals then Outcome(l, Some(TooManyWithdrawals))
    else if amount <= 0.0 then Outcome(l, Some(InvalidAmount))
    else Outcome(Ledger(l.balance - amount, l.statement + [Debit(amount)], l.withdrawals + 1), None)
  }

  /** `depositar`: only a positive amount is credited; the withdrawal count is never touched. */
  function Deposit(l: Ledger, amount: real): (r: Outcome)
    ensures r.rejection.None? <==> amount > 0.0
    ensures r.rejection.None? ==>
              && r.ledger.balance == l.balance + amount
              && r.ledger.statement == l.statement + [Credit(amount)]
    ensures r.rejection.Some? ==> r.ledger == l && r.rejection == Some(InvalidAmount)
    ensures r.ledger.withdrawals == l.withdrawals
  {
    if amount > 0.0 then Outcome(l.(balance := l.balance + amount, statement := l.statement + [Credit(amount)]), None)
    else Outcome(l, Some(InvalidAmount))
  }

  /** `processar_deposito` / `processar_saque`: the returned state replaces the account's.
      An accepted operation appends exactly one entry; a refused one changes nothing. */
  function Apply(l: Ledger, op: Op): (r: Outcome)
    ensures r.rejection.Some? ==> r.ledger == l
    ensures r.rejection.None? ==>
              && |r.ledger.statement| == |l.statement| + 1
              && r.ledger.statement[..|l.statement|] == l.statement
              && r.ledger.statement[|l.statement|].amount == op.amount
    ensures r.ledger.withdrawals == l.withdrawals + (if op.WithdrawOp? && r.rejection.None? then 1 else 0)
  {
    match op
    case DepositOp(v) => Deposit(l, v)
    case WithdrawOp(v) => Withdraw(l, v)
  }

  /** The ledger after a sequence of operations, each applied to the result of the previous one. */
  function Run(l: Ledger, ops: seq<Op>): Ledger
    decreases |ops|
  {
    if |ops| == 0 then l else Run(Apply(l, ops[0]).ledger, ops[1..])
  }

  /** One operation keeps the bounds and the agreement with the statement, and never lowers the count. */
  lemma ApplyKeepsInvariant(l: Ledger, op: Op)
    requires Sound(l) && Accounted(l)
    ensures Sound(Apply(l, op).ledger) && Accounted(Apply(l, op).ledger)
    ensures Apply(l, op).ledger.withdrawals >= l.withdrawals
  {
  }

  /** Any sequence of deposits and withdrawals keeps the bounds and the agreement with the statement;
      the withdrawal count only grows. */
  lemma {:induction false} RunKeepsInvariant(l: Ledger, ops: seq<Op>)
    requires Sound(l) && Accounted(l)
    ensures Sound(Run(l, ops)) && Accounted(Run(l, ops))
    ensures Run(l, ops).withdrawals >= l.withdrawals
    decreases |ops|
  {
    if |ops| > 0 {
      ApplyKeepsInvariant(l, ops[0]);
      RunKeepsInvariant(Apply(l, ops[0]).ledger, ops[1..]);
    }
  }

  /** From a new account, whatever the customer does: balance >= 0, at most three withdrawals,
      and balance and count are those the statement records. */
  lemma FreshAccountStaysSound(ops: seq<Op>)
    ensures Sound(Run(Fresh, ops)) && Accounted(Run(Fresh, ops))
  {
    RunKeepsInvariant(Fresh, ops);
  }

  /** On a sound account a non-positive amount is never blamed on the balance or the limit. */
  lemma NonPositiveWithdrawal(l: Ledger, amount: real)
    requires Sound(l) && amount <= 0.0
    ensures Withdraw(l, amount).rejection ==
              Some(if l.withdrawals >= MaxWithdrawals then TooManyWithdrawals else InvalidAmount)
  {
  }
}

=== FILE: workout_routes.dfy ===
/** The five `/workouts` handlers as total functions over the store. A failed request
    leaves both tables as they were; validation of the body comes before any lookup. */
module WorkoutRoutes {
  import opened Wrappers
  import opened WorkoutSchema
  import opened Store

  /** `POST /workouts/`: validate, check that the athlete exists, then insert under the next id
      with the insert time as `created_at`. */
  function Create(s: Store, input: WorkoutIn, now: Timestamp): (r: Reply<Workout>)
    ensures r.result == Failure(ValidationFailed) <==> !ValidIn(input)
    ensures r.result == Failure(NotFound) <==> ValidIn(input) && input.athleteId !in s.athletes
    ensures r.result.Success? <==> ValidIn(input) && input.athleteId in s.athletes
    ensures r.result.Failure? ==> r.store == s
    ensures r.result.Success? ==>
              var w := r.result.value;
              && w.id == s.nextWorkoutId && w.createdAt == now
              && w.athleteId == input.athleteId && w.name == input.name && w.sportModality == input.sportModality
              && r.store == s.(workouts := s.workouts[w.id := w], nextWorkoutId := s.nextWorkoutId + 1)
  {
    if !ValidIn(input) then Reply(s, Failure(ValidationFailed))
    else if input.athleteId !in s.athletes then Reply(s, Failure(NotFound))
    else
      var w := FromInput(s.nextWorkoutId, input, now);
      Reply(s.(workouts := s.workouts[w.id := w], nextWorkoutId := s.nextWorkoutId + 1), Success(w))
  }

  /** `GET /workouts/`: exactly the stored workouts, each once. */
  method List(s: Store) returns (r: seq<Workout>)
    requires WorkoutsKeyed(s)
    ensures |r| == |s.workouts|
    ensures forall w :: w in r <==> w in s.workouts.Values
    ensures forall i, j :: 0 <= i < j < |r| ==> r[i].id < r[j].id
  {
    var keys;
    keys, r := Enumerate(s.workouts, s.nextWorkoutId);
    forall w | w in s.workouts.Values
      ensures w in r
    {
      var k :| k in s.workouts && s.workouts[k] == w;
      var i :| 0 <= i < |keys| && keys[i] == k;
      assert r[i] == w;
    }
  }

  /** `GET /workouts/{id}`. */
  function Get(s: Store, id: int): (r: Result<Workout, ApiError>)
    ensures r.Success? <==> id in s.workouts
    ensures r.Success? ==> r.value == s.workouts[id]
    ensures r.Failure? ==> r.error == NotFound
  {
    if id in s.workouts then Success(s.workouts[id]) else Failure(NotFound)
  }

  /** `PATCH /workouts/{id}`: only `name` and `sport_modality` can change, and only if set. */
  function Update(s: Store, id: int, u: WorkoutUpdate): (r: Reply<Workout>)
    ensures r.result == Failure(ValidationFailed) <==> !ValidUpdate(u)
    ensures r.result == Failure(NotFound) <==> ValidUpdate(u) && id !in s.workouts
    ensures r.result == Failure(NotNullViolation) <==>
              ValidUpdate(u) && id in s.workouts && (u.name.Null? || u.sportModality.Null?)
    ensures r.result.Success? <==> ValidUpdate(u) && id in s.workouts && !u.name.Null? && !u.sportModality.Null?
    ensures r.result.Failure? ==> r.store == s
    ensures r.result.Success? ==>
              var w := r.result.value;
              && id in s.workouts
              && w.id == s.workouts[id].id
              && w.athleteId == s.workouts[id].athleteId
              && w.createdAt == s.workouts[id].createdAt
              && w.name == (if u.name.Set? then u.name.value else s.workouts[id].name)
              && w.sportModality == (if u.sportModality.Set? then u.sportModality.value else s.workouts[id].sportModality)
              && r.store == s.(workouts := s.workouts[id := w])
  {
    if !ValidUpdate(u) then Reply(s, Failure(ValidationFailed))
    else if id !in s.workouts then Reply(s, Failure(NotFound))
    else match Merge(s.workouts[id], u)
      case None => Reply(s, Failure(NotNullViolation))
      case Some(w) => Reply(s.(workouts := s.workouts[id := w]), Success(w))
  }

  /** `DELETE /workouts/{id}`: removes that workout and nothing else. */
  function Delete(s: Store, id: int): (r: Reply<()>)
    ensures r.result.Failure? <==> id !in s.workouts
    ensures r.result.Failure? ==> r.result.error == NotFound && r.store == s
    ensures r.result.Success? ==> r.store == s.(workouts := s.workouts - {id})
  {
    if id !in s.workouts then Reply(s, Failure(NotFound))
    else Reply(s.(workouts := s.workouts - {id}), Success(()))
  }

  /** A created workout gets an id no stored workout had, and every other row is untouched. */
  lemma CreateIsFresh(s: Store, input: WorkoutIn, now: Timestamp)
    requires Valid(s) && Create(s, input, now).result.Success?
    ensures Create(s, input, now).result.value.id !in s.workouts
    ensures forall k :: k in s.workouts ==> k in Create(s, input, now).store.workouts
                                            && Create(s, input, now).store.workouts[k] == s.workouts[k]
  {
  }

  lemma CreateKeepsValid(s: Store, input: WorkoutIn, now: Timestamp)
    requires Valid(s)
    ensures Valid(Create(s, input, now).store)
  {
  }

  lemma UpdateKeepsValid(s: Store, id: int, u: WorkoutUpdate)
    requires Valid(s)
    ensures Valid(Update(s, id, u).store)
    ensures Update(s, id, u).result.Success? ==> Update(s, id, u).result.value.id == id
  {
  }

  lemma DeleteKeepsValid(s: Store, id: int)
    requires Valid(s)
    ensures Valid(Delete(s, id).store)
  {
  }

  /** The athlete check before the insert means no workout is ever created dangling. */
  lemma CreateKeepsReferences(s: Store, input: WorkoutIn, now: Timestamp)
    requires ReferencesResolve(s)
    ensures ReferencesResolve(Create(s, input, now).store)
  {
  }

  lemma UpdateKeepsReferences(s: Store, id: int, u: WorkoutUpdate)
    requires ReferencesResolve(s)
    ensures ReferencesResolve(Update(s, id, u).store)
  {
  }

  lemma DeleteKeepsReferences(s: Store, id: int)
    requires ReferencesResolve(s)
    ensures ReferencesResolve(Delete(s, id).store)
  {
  }

  /** The new workout joins its athlete's workouts; every other athlete's workouts stay as they were. */
  lemma CreateExtendsWorkoutsOf(s: Store, input: WorkoutIn, now: Timestamp, athleteId: int)
    requires Valid(s) && Create(s, input, now).result.Success?
    ensures var w := Create(s, input, now).result.value;
            WorkoutsOf(Create(s, input, now).store, athleteId) ==
              if athleteId == input.athleteId then WorkoutsOf(s, athleteId)[w.id := w] else WorkoutsOf(s, athleteId)
  {
  }

  /** An update never moves a workout to another athlete. */
  lemma UpdateKeepsOwners(s: Store, id: int, u: WorkoutUpdate, athleteId: int)
    ensures WorkoutsOf(Update(s, id, u).store, athleteId).Keys == WorkoutsOf(s, athleteId).Keys
  {
  }

  /** A delete takes the workout out of its athlete's workouts and nothing else. */
  lemma DeleteShrinksWorkoutsOf(s: Store, id: int, athleteId: int)
    ensures WorkoutsOf(Delete(s, id).store, athleteId) == WorkoutsOf(s, athleteId) - {id}
  {
  }

  /** After a delete, looking the workout up fails. */
  lemma DeleteThenGet(s: Store, id: int)
    ensures Get(Delete(s, id).store, id) == Failure(NotFound)
  {
  }
}

=== FILE: workout_schema.dfy ===
/** Request and response shapes for workouts, and the row the workout table stores. */
module WorkoutSchema {
  import opened Wrappers

  /** `name` and `sport_modality` are `String(50)` columns and `max_length=50` fields. */
  const TextMax: nat := 50

  /** A point in time; the store supplies it, requests never do. */
  type Timestamp = int

  /** `WorkoutIn`: the creation body. It carries neither `id` nor `created_at`. */
  datatype WorkoutIn = WorkoutIn(athleteId: int, name: string, sportModality: string)

  /** A stored workout row; its fields are exactly those of `WorkoutOut`. */
  datatype Workout = Workout(id: int, athleteId: int, name: string, sportModality: string, createdAt: Timestamp)

  /** `WorkoutUpdate`: the partial-update body. It has no `athlete_id`, `id` or `created_at`. */
  datatype WorkoutUpdate = WorkoutUpdate(name: Patch<string>, sportModality: Patch<string>)

  /** Field constraints of `WorkoutIn`. */
  predicate ValidIn(w: WorkoutIn)
  {
    |w.name| <= TextMax && |w.sportModality| <= TextMax
  }

  /** Field constraints of `WorkoutUpdate`: they apply only to fields sent with a value. */
  predicate ValidUpdate(u: WorkoutUpdate)
  {
    && (u.name.Set? ==> |u.name.value| <= TextMax)
    && (u.sportModality.Set? ==> |u.sportModality.value| <= TextMax)
  }

  /** Column lengths of the workout table: the same bounds as the input body, since both
      widths are `String(50)`. */
  predicate ValidRow(w: Workout)
  {
    ValidIn(WorkoutIn(w.athleteId, w.name, w.sportModality))
  }

  /** `WorkoutModel(**data.model_dump())` with the id the table assigns and the insert time
      as `created_at`. */
  function FromInput(id: int, w: WorkoutIn, now: Timestamp): (r: Workout)
    ensures r.id == id && r.athleteId == w.athleteId && r.createdAt == now
    ensures r.name == w.name && r.sportModality == w.sportModality
    ensures ValidRow(r) <==> ValidIn(w)
  {
    Workout(id, w.athleteId, w.name, w.sportModality, now)
  }

  /** The `setattr` loop over the fields that were set. `None` when a set field is null,
      which the non-null columns refuse at commit. */
  function Merge(w: Workout, u: WorkoutUpdate): (r: Option<Workout>)
    ensures r.Some? <==> !u.name.Null? && !u.sportModality.Null?
    ensures r.Some? ==> r.value.id == w.id && r.value.athleteId == w.athleteId && r.value.createdAt == w.createdAt
    ensures r.Some? ==> r.value.name == (if u.name.Set? then u.name.value else w.name)
    ensures r.Some? ==> r.value.sportModality == (if u.sportModality.Set? then u.sportModality.value else w.sportModality)
  {
    match (Assign(u.name, w.name), Assign(u.sportModality, w.sportModality))
    case (Some(n), Some(m)) => Some(w.(name := n, sportModality := m))
    case _ => None
  }

  /** A valid patch applied to a valid row gives a valid row. */
  lemma MergeKeepsValidRow(w: Workout, u: WorkoutUpdate)
    requires ValidRow(w) && ValidUpdate(u) && Merge(w, u).Some?
    ensures ValidRow(Merge(w, u).value)
  {
  }

  /** Applying the same patch twice is applying it once. */
  lemma MergeIdempotent(w: Workout, u: WorkoutUpdate)
    requires Merge(w, u).Some?
    ensures Merge(Merge(w, u).value, u) == Merge(w, u)
  {
  }
}

=== FILE: wrappers.dfy ===
/** Failure-carrying datatypes shared by the banking script and the workout API. */
module Wrappers {

  /** A value that may be absent (Python's `None`). */
  datatype Option<+T> = None | Some(value: T)

  /** The outcome of a request handler: a value, or the error it reports. */
  datatype Result<+T, +E> = Success(value: T) | Failure(error: E)

  /** One field of a partial-update body. A field the client left out is `Unset`;
      a field sent as JSON `null` is `Null` (it still counts as set); otherwise `Set`. */
  datatype Patch<+T> = Unset | Null | Set(value: T)

  /** The value a column holds after the patch field has been assigned to it;
      `None` when the assignment writes a null. */
  function Assign<T>(p: Patch<T>, current: T): (r: Option<T>)
    ensures r.None? <==> p.Null?
    ensures p.Unset? ==> r == Some(current)
    ensures p.Set? ==> r == Some(p.value)
  {
    match p
    case Unset => Some(current)
    case Null => None
    case Set(v) => Some(v)
  }
}
